=== FILE: README.md ===
# CareerLens backend core, modelled in Dafny

CareerLens is a small Flask service. It classifies a user by age and asks a
hosted language model for personality traits, a career recommendation, the
skills that career needs, and course suggestions. It also runs a chat whose
prompt depends on the user's stage. Everything around the model calls is
deterministic, and that is what this project models:

- `classify_user`, the age-to-label classifier (`classifier.dfy`).
- The pure body of `analyze_skill_gap_dynamic` (`skill_gap.dfy`). It splits
  the model's reply on commas, strips and title-cases each piece, drops blank
  pieces, normalises the user's skills the same way, and keeps the required
  skills the user lacks.
- `suggest_courses_dynamic`, which consults the model only when something is
  missing (`agents.dfy`).
- The `/chat` and `/analyze` pipelines as pure functions (`endpoints.dfy`).
  This covers the transcript rendering, the choice of chat template from the
  category label, the category branch of `analyze`, the response fields, and
  the number of model calls on each path.

The language model is an oracle, `Model = Prompt -> string`. A `Prompt` is
the template together with the values interpolated into it; the template
prose is not modelled. Every agent returns its value together with the
prompts it sent, in order, so "number of model calls" is the length of that
list.

The Python string operations the code depends on are written out in
`text.dfy`:

- `strip()` removes exactly the characters `str.isspace` accepts.
- `title()` upper-cases a cased character after an uncased one and
  lower-cases it after a cased one. Only ASCII letters are treated as cased.
- `split(",")` always yields at least one piece, and `""` splits into `[""]`.
- `join` and `startswith` behave as in Python.

`seqs.dfy` holds the list comprehensions (`Map`, `Filter`, `FlatMap`) and the
subsequence relation.

`app.py` keeps the required and known skills in ordered lists, not sets:
`required` keeps the model's order and its duplicates, and `missing` keeps
each duplicate the user lacks. The model uses `seq` and proves the multiset
facts (`SkillGap.MissingCounts`).

## Model

| member | source | states |
|---|---|---|
| Classifier.Classify | app.py:29-34 | The category is School exactly for ages <= 15, negative ages included; Senior exactly for 16..18; College exactly for ages >= 19. |
| Classifier.ClassifyUser | app.py:29-34 | The label is "School Student (≤10th)" iff age <= 15, "Senior School (11th–12th)" iff 16 <= age <= 18, and "College Student" iff age >= 19. |
| Classifier.LabelsDistinct | app.py:31-34 | The three labels are pairwise different, so each integer age gets exactly one of them. |
| Classifier.Label | app.py:31-34 | A label starts with "School" exactly for the school category and with "Senior" exactly for the senior category; "College Student" has neither prefix. |
| Text.TrimStartSplits | app.py:57 | What `lstrip` keeps is a suffix of the input, and everything it drops is whitespace. |
| Text.TrimEndSplits | app.py:57 | What `rstrip` keeps is a prefix of the input, and everything it drops is whitespace. |
| Text.Strip | app.py:57 | The result of `strip()` has no whitespace at either end and is no longer than the input. |
| Text.StripIsInfix | app.py:57 | `strip()` keeps a contiguous part of the input, with only whitespace before and after it. |
| Text.StripEmpty | app.py:57 | `strip()` gives the empty string exactly when the input is all whitespace. |
| Text.StripIdempotent | app.py:57 | Stripping twice equals stripping once. |
| Text.StripLeadingSpace | app.py:57 | A leading whitespace character does not change the result of `strip()`. |
| Text.Title | app.py:57-58 | `title()` keeps the length of the string and upper-cases its first character. |
| Text.TitleAt | app.py:57-58 | Closed form of `title()`: a character is lower-cased when the previous one is cased and upper-cased otherwise. |
| Text.TitleIgnoresCase | app.py:57-58 | Two strings that agree letter by letter up to case title-case to the same string. |
| Text.TitleChangesCaseOnly | app.py:57 | `title()` keeps each character's lower-case form and casedness, and leaves uncased characters unchanged. |
| Text.TitleIdempotent | app.py:57 | Title-casing twice equals title-casing once. |
| Text.TitleKeepsStripped | app.py:57 | Title-casing a stripped string leaves it stripped. |
| Text.TitleKeepsUncasedOut | app.py:57 | Title-casing adds no uncased character, such as a comma, that was not already present. |
| Text.Split | app.py:57 | `split(sep)` yields at least one piece, and no piece contains the separator. |
| Text.SplitNoSep | app.py:57 | A string without the separator splits into itself alone. |
| Text.SplitAtSep | app.py:57 | `split` distributes over a separator: the pieces of `a + sep + b` are the pieces of `a` followed by the pieces of `b`. |
| Text.JoinSplit | app.py:57 | Joining the pieces of `split(sep)` with `sep` gives back the original string. |
| Text.SplitJoin | app.py:88-90 | Splitting a join of separator-free pieces gives back the pieces. |
| Text.Join | app.py:66 | `sep.join(parts)` of no parts is empty. Otherwise it starts with the first part, and its length is that of all the parts plus one separator between each neighbouring pair. |
| Text.JoinAsFlatMap | app.py:66 | For any separator and any non-empty list of parts, `sep.join(parts) + sep` is every part followed by `sep`, in order, which fixes the joined string exactly. |
| Text.StartsWith | app.py:92-99 | `s.startswith(prefix)` holds exactly when `s` is `prefix` followed by some string. |
| SkillGap.Normalize | app.py:57-58 | `s.strip().title()` is exactly as long as `s.strip()`, and matches it letter by letter up to case. |
| SkillGap.NormalizeIgnoresCaseAndPadding | app.py:57-59 | Names whose stripped forms agree letter by letter up to case normalise to the same name, so a known skill in other case or with padding covers the required one. |
| SkillGap.NormalizeEmpty | app.py:57-58 | A string normalises to the empty string exactly when it is all whitespace. |
| SkillGap.NormalizeIsNormal | app.py:57-58 | A normalised name is stripped and is its own title case. |
| SkillGap.NormalizeIdempotent | app.py:57-58 | Normalising twice equals normalising once. |
| SkillGap.NormalizeKeepsCommaOut | app.py:57 | Normalising a comma-free piece introduces no comma. |
| SkillGap.NotBlankIff | app.py:57 | The filter on the pieces keeps a piece exactly when the piece is not all whitespace. |
| SkillGap.Required | app.py:57 | Every required skill is non-empty, normalised and comma-free. |
| SkillGap.RequiredIsFilterThenMap | app.py:57 | `required` equals the non-blank pieces of the comma split, in their original order, each normalised. |
| SkillGap.RequiredOfPiece | app.py:57 | A comma-free reply gives its normal form if it is not blank, and nothing otherwise. |
| SkillGap.SingleSkillReply | app.py:57 | A comma-free reply that is not all whitespace gives exactly one required skill. |
| SkillGap.ErrorMarkerIsASkill | app.py:57 | An `AI_ERROR: ` marker with a comma-free message becomes one bogus required skill. |
| SkillGap.RequiredAtComma | app.py:57 | The skills of `a + "," + b` are the skills of `a` followed by the skills of `b`. |
| SkillGap.RequiredAtCommaSpace | app.py:57 | The skills of `a + ", " + b` are the skills of `a` followed by the skills of `b`, as when reading a list joined with `", "`. |
| SkillGap.RequiredEmpty | app.py:57 | `required` is empty exactly when the reply contains only commas and whitespace; this includes the empty reply. |
| SkillGap.NormalizeAll | app.py:58 | Normalising the user's skills drops no entry: entry `i` of the result is the normal form of entry `i` of the input, and is normalised. |
| SkillGap.Missing | app.py:59 | A skill is missing exactly when it is required and not known, and `missing` is an order-preserving subsequence of `required`. |
| SkillGap.MissingCounts | app.py:59 | A required skill the user lacks is missing exactly as many times as `required` lists it; a known skill is never missing. |
| SkillGap.MissingWithinRequired | app.py:59 | `missing` is a sub-multiset of `required`, counting duplicates. |
| SkillGap.MissingEmptyIffCovered | app.py:58-59 | Nothing is missing exactly when every required skill is among the known skills. |
| SkillGap.MissingDisjoint | app.py:59 | When no required skill is known, `missing` equals `required`. |
| SkillGap.Diff | app.py:57-60 | The gap's `required` is the parsed reply; its `missing` is an order-preserving subsequence of `required` holding exactly the required skills not among the normalised user skills. |
| SkillGap.DiffWithoutSkills | app.py:57-60 | A user with no skills misses every required skill, in the same order. |
| SkillGap.DiffRenormalized | app.py:58-59 | Passing already normalised user skills gives the same result. |
| SkillGap.RequiredRenormalized | app.py:57-58 | The required skills are already normal, so normalising them again changes nothing. |
| SkillGap.RequiredLeadingSpace | app.py:57 | A leading space in the reply does not change the required skills. |
| SkillGap.RequiredOfSkill | app.py:57 | A single normal, comma-free skill name reads back as itself. |
| SkillGap.RequiredOfJoinedStep | app.py:57 | Reading a `", "`-joined list gives the first name's skills followed by the skills of the rest. |
| SkillGap.RequiredOfJoined | app.py:57 | Normal, comma-free, non-empty names joined with `", "` read back as the same list. |
| SkillGap.MissingReadsBack | app.py:57-66 | The missing skills joined as the course prompt joins them read back as the same list. |
| SkillGap.MissingKeepsNormal | app.py:59 | Every missing skill is non-empty, normalised and comma-free, because it comes from `required`. |
| SkillGap.DiffOfWords | app.py:57-60 | Three capitalised words, the first of them known, give all three as required and the other two as missing. |
| SkillGap.PaddedKnownSkill | app.py:57-60 | A required "Python" is covered by the known skill "  python ": nothing is missing. |
| SkillGap.ExampleGap | app.py:57-60 | The reply "Python, Communication, Teamwork" against a user who knows "Python" gives those three as required and the last two as missing. |
| Agents.AnalyzePersonality | app.py:36-39 | Exactly one model call, the personality prompt for the answers; the traits are its reply. |
| Agents.RecommendCareer | app.py:41-51 | Exactly one model call, the career prompt for the traits and answers; the recommendation is its reply. |
| Agents.AnalyzeSkillGap | app.py:53-60 | One model call, the skills prompt for the career; the result is the diff of the reply against the user's skills. |
| Agents.SuggestCourses | app.py:62-67 | With nothing missing: no call and exactly "No skill gap detected.". Otherwise: exactly one call, whose prompt lists the missing skills joined by ", ", and the reply is the result. |
| Agents.CoursePromptListsMissing | app.py:57-67 | When something is missing, the course prompt names exactly the missing skills in order; reading its list back gives `missing`. |
| Endpoints.SelectAudience | app.py:92-113 | For any category's label, the prefix dispatch picks the counsellor meant for that category. |
| Endpoints.SelectAudienceOfLabel | app.py:92-113 | Dispatching on the label prefix selects the school template for school students, the 11th–12th template for senior students, and the college template for college students. |
| Endpoints.Chat | app.py:87-120 | One model call. The reply is the model's answer, the category is the classifier's label, and the prompt carries the rendered transcript. The template is school iff age <= 15, senior iff 16..18, college iff age >= 19. |
| Endpoints.Line | app.py:89 | A rendered message is the role, then `": "`, then the content, so both role and content read back from it. It contains a newline only if the role or the content does. |
| Endpoints.Transcript | app.py:88-90 | No messages render as the empty string. For any non-empty list, multi-line contents included, the transcript followed by a newline is each message's `role: content` line followed by a newline, in order. When no role or content has a newline, splitting the transcript on newlines gives exactly those lines back. |
| Endpoints.TranscriptLines | app.py:88-90 | For a non-empty list of messages with no newline in any role or content, splitting the transcript on newlines gives exactly one `role: content` line per message, in order. (An empty list renders as `""`, which splits into `[""]`.) |
| Endpoints.Analyze | app.py:133-135 | The category is the classifier's label. The first call is the personality prompt and the second is the career prompt built from its reply; traits and career are those replies. |
| Endpoints.GapAndCourses | app.py:145-146 | The third call asks for the career's skills and its reply is diffed. A fourth call, listing the missing skills, happens exactly when something is missing; otherwise the courses are the fixed message. |
| Endpoints.AnalyzeSkipsGap | app.py:137-143 | Below college age: exactly 2 calls, the note "Skill gap analysis not required.", and no required skills, missing skills or courses. |
| Endpoints.AnalyzeCollegeGap | app.py:145-155 | College age: no note. The third call asks for the career's skills. The response carries the diff of that reply, 3 calls when nothing is missing and 4 otherwise, and the courses are the fixed message or the reply to the fourth, course, prompt. |
| Endpoints.AnalyzeCollegeTail | app.py:145-155 | College age: after the first two calls come exactly the calls of the gap-and-courses step, and the skill fields and courses are its results. |
| Endpoints.AnalyzeFields | app.py:137-155 | The note is present iff age <= 18, and required skills, missing skills and courses are present iff age >= 19. |
| Endpoints.AnalyzeMissingWithinRequired | app.py:145-155 | For a college student, the reported missing skills are a sub-multiset of the reported required skills, and are exactly the required ones not among the normalised user skills. |
| Endpoints.AnalyzeWithGap | app.py:145-155 | College age with a known gap: the response carries it, with 3 calls when nothing is missing and 4 otherwise. |
| Endpoints.AnalyzeExample | app.py:133-155 | A college student who knows Python and whose skill reply is "Python, Communication, Teamwork" gets four calls, all three skills as required, and Communication and Teamwork as missing. |

## Left out

- `safe_gemini_call` and the Gemini SDK (app.py:11, 17-23) are the oracle `Model`. A reply can be any string, including an `AI_ERROR: ` marker. The differ's treatment of such a marker is stated in `SkillGap.ErrorMarkerIsASkill`.
- The oracle is a function, so the same prompt always gets the same reply. The real model is nondeterministic; no property here compares two calls with the same prompt.
- Flask routing, `request.json`, `jsonify`, CORS and the catch-all HTTP 500 envelopes (app.py:73-78, 82-85, 117-131, 157-161) are not modelled. Inputs arrive already typed: an integer age, the answers string, the messages as role/content pairs. Requests whose fields have other JSON types are outside the model. A missing `age`, `answers` or `messages` key gives a 500. Some badly typed fields do not: an `answers` that is not a string is interpolated into the prompts as it is (app.py:38, 47), and a `skills` string is iterated character by character (app.py:58), so `"SQL"` counts as the skills `S`, `Q`, `L`. A missing `skills` field is `None` here and defaults to the empty list (app.py:131). An explicit `null` is read only on the college path: for ages up to 18 it is never looked at (app.py:137-143). For college ages the source raises at app.py:58, after three model calls, and answers with a 500.
- The `/` and `/debug` endpoints, the environment configuration and server start-up (app.py:10-11, 76-78, 159-169) are not modelled.
- The wording of the prompt templates is not modelled. A prompt is identified by its template and the values interpolated into it.
- Classifier.Classify: ages are integers; fractional JSON ages are not modelled. An age strictly between 15 and 16, such as `15.5`, or strictly between 18 and 19 fails both guards at app.py:30 and 32, so the source labels it "College Student". Other fractional ages fall into the range that contains them, so `10.5` is a school student and `17.5` a senior one.
- Text.Title: only ASCII letters are cased. Python's `title()` also changes the case of non-ASCII letters and treats some characters as titlecase; those are not modelled. Python's full case mappings can also change a string's length (`"ß".title()` is `"Ss"`). So the same-length promises of `Text.Title` and `SkillGap.Normalize` hold only under this ASCII casing.

=== FILE: agents.dfy ===
/** The agents: each builds one prompt, hands it to the language model, and
    post-processes the reply. The model is an oracle from prompts to replies;
    every agent also reports the prompts it sent, in order, so that the number
    of model calls is visible. */
module Agents {
  import opened Text
  import opened SkillGap

  /** Which counsellor the chat prompt casts the model as. */
  datatype Audience = SchoolAudience | SeniorAudience | CollegeAudience

  /** A prompt, identified by its template and the values interpolated into it. */
  datatype Prompt =
    | PersonalityPrompt(answers: string)
    | CareerPrompt(traits: string, answers: string)
    | SkillsPrompt(career: string)
    | CoursesPrompt(skillList: string)
    | ChatPrompt(audience: Audience, transcript: string)

  /** The language model as `safe_gemini_call` exposes it: a reply for every
      prompt, which may be an error marker. */
  type Model = Prompt -> string

  /** A value computed with the model, and the prompts sent for it in order. */
  datatype Answer<T> = Answer(value: T, calls: seq<Prompt>)

  const NoGapMessage: string := "No skill gap detected."

  /** `analyze_personality`: one call with the user's free-text answers. */
  function AnalyzePersonality(model: Model, answers: string): (a: Answer<string>)
    ensures |a.calls| == 1 && a.calls[0] == PersonalityPrompt(answers)
    ensures a.value == model(a.calls[0])
  {
    var p := PersonalityPrompt(answers);
    Answer(model(p), [p])
  }

  /** `recommend_career`: one call with the traits and the answers. */
  function RecommendCareer(model: Model, traits: string, answers: string): (a: Answer<string>)
    ensures |a.calls| == 1 && a.calls[0] == CareerPrompt(traits, answers)
    ensures a.value == model(a.calls[0])
  {
    var p := CareerPrompt(traits, answers);
    Answer(model(p), [p])
  }

  /** `analyze_skill_gap_dynamic`: one call asking for the career's skills,
      whose reply is diffed against the user's skills. */
  function AnalyzeSkillGap(model: Model, career: string, userSkills: seq<string>): (a: Answer<Gap>)
    ensures |a.calls| == 1 && a.calls[0] == SkillsPrompt(career)
    ensures a.value == Diff(model(a.calls[0]), userSkills)
  {
    var p := SkillsPrompt(career);
    Answer(Diff(model(p), userSkills), [p])
  }

  /** `suggest_courses_dynamic`: with nothing missing, the fixed message and no
      call; otherwise exactly one call listing the missing skills. */
  function SuggestCourses(model: Model, missing: seq<string>): (a: Answer<string>)
    ensures missing == [] <==> a.calls == []
    ensures missing == [] ==> a.value == "No skill gap detected."
    ensures missing != [] ==>
      |a.calls| == 1 && a.calls[0] == CoursesPrompt(Join(", ", missing)) && a.value == model(a.calls[0])
  {
    if |missing| == 0 then Answer(NoGapMessage, [])
    else
      var p := CoursesPrompt(Join(", ", missing));
      Answer(model(p), [p])
  }

  /** The course prompt names exactly the missing skills, in order: reading its
      list back the way the model's skill list is read gives `missing` again. */
  lemma CoursePromptListsMissing(model: Model, skillsText: string, userSkills: seq<string>)
    ensures var missing := Diff(skillsText, userSkills).missing;
      missing != [] ==> Required(SuggestCourses(model, missing).calls[0].skillList) == missing
  {
    MissingReadsBack(skillsText, userSkills);
  }
}

=== FILE: classifier.dfy ===
/** The user classifier: an age picks one of three stages, each shown to the
    client by a fixed label. */
module Classifier {
  import opened Text

  datatype Category = SchoolStudent | SeniorSchool | CollegeStudent

  /** The label `classify_user` returns for each category. Its prefix names
      the category, which is what the chat endpoint dispatches on. */
  function Label(c: Category): (r: string)
    ensures StartsWith(r, "School") <==> c == SchoolStudent
    ensures StartsWith(r, "Senior") <==> c == SeniorSchool
  {
    // The second letter already tells the prefixes apart.
    assert "School"[1] == 'c' && "Senior"[1] == 'e';
    match c
    case SchoolStudent => "School Student (≤10th)"
    case SeniorSchool => "Senior School (11th–12th)"
    case CollegeStudent => "College Student"
  }

  /** `classify_user`: ages up to 15 (negative ones included) are school
      students, 16 to 18 senior school, and every other age college students. */
  function Classify(age: int): (c: Category)
    ensures c == SchoolStudent <==> age <= 15
    ensures c == SeniorSchool <==> 16 <= age <= 18
    ensures c == CollegeStudent <==> age >= 19
  {
    if age <= 15 then SchoolStudent
    else if 16 <= age <= 18 then SeniorSchool
    else CollegeStudent
  }

  /** `classify_user` as the service uses it, returning the label. */
  function ClassifyUser(age: int): (name: string)
    ensures name == "School Student (≤10th)" <==> age <= 15
    ensures name == "Senior School (11th–12th)" <==> 16 <= age <= 18
    ensures name == "College Student" <==> age >= 19
  {
    LabelsDistinct();
    Label(Classify(age))
  }

  /** Distinct categories have distinct labels, so a label identifies its
      category and every age receives exactly one of the three labels. */
  lemma LabelsDistinct()
    ensures forall c, d :: Label(c) == Label(d) <==> c == d
  {
    forall c, d | c != d
      ensures Label(c) != Label(d)
    {
      assert Label(c)[1] != Label(d)[1] || |Label(c)| != |Label(d)|;
    }
  }
}

=== FILE: endpoints.dfy ===
/** The two request pipelines behind the `/chat` and `/analyze` endpoints,
    once the request body has been read: which prompts they send, in which
    order, and which fields the response carries. */
module Endpoints {
  import opened Seqs
  import opened Text
  import opened Classifier
  import opened SkillGap
  import opened Agents

  datatype Option<T> = None | Some(value: T) {
    function GetOr(default: T): T {
      match this
      case Some(v) => v
      case None => default
    }
  }

  // ---------------------------------------------------------------------------
  // /chat
  // ---------------------------------------------------------------------------

  datatype Message = Message(role: string, content: string)

  /** One message of the conversation, as `role: content`: the role and the
      content both read back from the line, and the line has a newline only
      where the role or the content has one. */
  function Line(m: Message): (r: string)
    ensures |r| == |m.role| + 2 + |m.content|
    ensures m.role <= r && r[|m.role|..|m.role| + 2] == ": " && r[|m.role| + 2..] == m.content
    ensures '\n' in r ==> '\n' in m.role || '\n' in m.content
  {
    var sep := ": ";
    assert '\n' !in sep;
    var r := m.role + sep + m.content;
    assert r[|m.role|..|m.role| + 2] == sep;
    assert r[|m.role| + 2..] == m.content;
    r
  }

  /** A rendered message followed by the line break that ends it. */
  function EndedLine(m: Message): string {
    Line(m) + "\n"
  }

  /** The conversation rendered for the prompt: one line per message, every
      line but the last ended by a newline. With no newline inside a role or
      a content, reading the lines back recovers the messages' renderings
      exactly. */
  function Transcript(messages: seq<Message>): (r: string)
    ensures messages == [] ==> r == ""
    ensures |messages| > 0 ==> r + "\n" == FlatMap(messages, EndedLine)
    ensures |messages| > 0 && NoNewlines(messages) ==> Split(r, '\n') == Map(messages, Line)
  {
    LinesSplitBack(messages);
    LinesEnded(messages);
    Join("\n", Map(messages, Line))
  }

  lemma {:induction false} LinesEnded(messages: seq<Message>)
    ensures |messages| > 0 ==> Join("\n", Map(messages, Line)) + "\n" == FlatMap(messages, EndedLine)
  {
    if |messages| == 1 {
      assert Map(messages, Line) == [Line(messages[0])];
      assert FlatMap(messages, EndedLine) == EndedLine(messages[0]) + FlatMap(messages[1..], EndedLine);
    } else if |messages| > 1 {
      var lines := Map(messages, Line);
      LinesEnded(messages[1..]);
      assert lines[1..] == Map(messages[1..], Line);
      var rest := Join("\n", lines[1..]);
      assert Join("\n", lines) + "\n" == EndedLine(messages[0]) + (rest + "\n");
    }
  }

  predicate NoNewlines(messages: seq<Message>) {
    forall i :: 0 <= i < |messages| ==>
      '\n' !in messages[i].role && '\n' !in messages[i].content
  }

  lemma LinesSplitBack(messages: seq<Message>)
    ensures |messages| > 0 && NoNewlines(messages) ==>
      Split(Join("\n", Map(messages, Line)), '\n') == Map(messages, Line)
  {
    if |messages| > 0 && NoNewlines(messages) {
      var lines := Map(messages, Line);
      forall i | 0 <= i < |lines|
        ensures '\n' !in lines[i]
      {
        assert lines[i] == Line(messages[i]);
      }
      SplitJoin(lines, '\n');
    }
  }

  /** The counsellor each category is meant to get. */
  function AudienceFor(c: Category): Audience {
    match c
    case SchoolStudent => SchoolAudience
    case SeniorSchool => SeniorAudience
    case CollegeStudent => CollegeAudience
  }

  /** The template choice `chat` makes from the category label's prefix: the
      counsellor meant for the category whose label it is. */
  function SelectAudience(category: string): (r: Audience)
    ensures forall c :: category == Label(c) ==> r == AudienceFor(c)
  {
    if StartsWith(category, "School") then SchoolAudience
    else if StartsWith(category, "Senior") then SeniorAudience
    else CollegeAudience
  }

  /** Dispatching on the label's prefix picks the counsellor meant for the
      category. */
  lemma SelectAudienceOfLabel(c: Category)
    ensures SelectAudience(Label(c)) == AudienceFor(c)
  {
  }

  datatype ChatReply = ChatReply(category: string, reply: string)

  /** `chat`: classify, render the transcript, pick the template, and make
      exactly one model call. */
  function Chat(model: Model, age: int, messages: seq<Message>): (a: Answer<ChatReply>)
    ensures a.value.category == ClassifyUser(age)
    ensures |a.calls| == 1 && a.value.reply == model(a.calls[0])
    ensures a.calls[0].ChatPrompt? && a.calls[0].transcript == Transcript(messages)
    ensures a.calls[0].audience == SchoolAudience <==> age <= 15
    ensures a.calls[0].audience == SeniorAudience <==> 16 <= age <= 18
    ensures a.calls[0].audience == CollegeAudience <==> age >= 19
  {
    var category := ClassifyUser(age);
    SelectAudienceOfLabel(Classify(age));
    var p := ChatPrompt(SelectAudience(category), Transcript(messages));
    Answer(ChatReply(category, model(p)), [p])
  }

  /** With no newline in any role or content, the transcript splits back into
      exactly the rendered messages, one per line, in order. */
  lemma TranscriptLines(messages: seq<Message>)
    requires |messages| > 0
    requires forall i :: 0 <= i < |messages| ==>
      '\n' !in messages[i].role && '\n' !in messages[i].content
    ensures Split(Transcript(messages), '\n') == Map(messages, Line)
  {
    assert NoNewlines(messages);
  }

  // ---------------------------------------------------------------------------
  // /analyze
  // ---------------------------------------------------------------------------

  const SkippedNote: string := "Skill gap analysis not required."

  /** The `/analyze` response; absent fields are `None`. */
  datatype Analysis = Analysis(
    category: string,
    traits: string,
    careerRecommendation: string,
    requiredSkills: Option<seq<string>>,
    missingSkills: Option<seq<string>>,
    courses: Option<string>,
    note: Option<string>)

  /** `analyze`: personality, then career; college students also get the skill
      gap and, when something is missing, course suggestions. `skills` is
      `None` when the request has no `skills` field. */
  function Analyze(model: Model, age: int, answers: string, skills: Option<seq<string>>): (a: Answer<Analysis>)
    ensures a.value.category == ClassifyUser(age)
    ensures |a.calls| >= 2
    ensures a.calls[0] == PersonalityPrompt(answers) && a.value.traits == model(a.calls[0])
    ensures a.calls[1] == CareerPrompt(a.value.traits, answers)
    ensures a.value.careerRecommendation == model(a.calls[1])
  {
    var category := ClassifyUser(age);
    var traits := AnalyzePersonality(model, answers);
    var career := RecommendCareer(model, traits.value, answers);
    var consulted := traits.calls + career.calls;
    assert consulted == [PersonalityPrompt(answers), CareerPrompt(traits.value, answers)];
    if category != "College Student" then
      Answer(Analysis(category, traits.value, career.value, None, None, None, Some(SkippedNote)),
             consulted)
    else
      var rest := GapAndCourses(model, career.value, skills.GetOr([]));
      Answer(Analysis(category, traits.value, career.value,
                      Some(rest.value.0.required), Some(rest.value.0.missing), Some(rest.value.1), None),
             consulted + rest.calls)
  }

  /** The college-only tail of `analyze`: the skill gap for the career, then
      the course suggestions for what is missing. */
  function GapAndCourses(model: Model, career: string, userSkills: seq<string>): (a: Answer<(Gap, string)>)
    ensures |a.calls| >= 1 && a.calls[0] == SkillsPrompt(career)
    ensures a.value.0 == Diff(model(a.calls[0]), userSkills)
    ensures a.value.0.missing == [] ==> |a.calls| == 1 && a.value.1 == NoGapMessage
    ensures a.value.0.missing != [] ==>
      && |a.calls| == 2
      && a.calls[1] == CoursesPrompt(Join(", ", a.value.0.missing))
      && a.value.1 == model(a.calls[1])
  {
    var gap := AnalyzeSkillGap(model, career, userSkills);
    var courses := SuggestCourses(model, gap.value.missing);
    Answer((gap.value, courses.value), gap.calls + courses.calls)
  }

  /** Below college age the pipeline stops after the career: two calls, the
      fixed note, and no skill fields. */
  lemma AnalyzeSkipsGap(model: Model, age: int, answers: string, skills: Option<seq<string>>)
    requires age <= 18
    ensures var a := Analyze(model, age, answers, skills);
      && |a.calls| == 2
      && a.value.note == Some(SkippedNote)
      && a.value.requiredSkills.None? && a.value.missingSkills.None? && a.value.courses.None?
  {
    assert ClassifyUser(age) != "College Student";
  }

  /** A college student gets the skill gap of the reply to the third prompt,
      which asks for the recommended career's skills, and the course
      suggestions for what is missing: a fourth call exactly when something is. */
  lemma AnalyzeCollegeGap(model: Model, age: int, answers: string, skills: Option<seq<string>>)
    requires age >= 19
    ensures var a := Analyze(model, age, answers, skills);
      && a.value.note.None?
      && |a.calls| >= 3
      && a.calls[2] == SkillsPrompt(a.value.careerRecommendation)
      && var gap := Diff(model(a.calls[2]), skills.GetOr([]));
      && a.value.requiredSkills == Some(gap.required)
      && a.value.missingSkills == Some(gap.missing)
      && |a.calls| == (if gap.missing == [] then 3 else 4)
      && a.value.courses == Some(if gap.missing == [] then NoGapMessage else model(a.calls[3]))
      && (gap.missing != [] ==> a.calls[3] == CoursesPrompt(Join(", ", gap.missing)))
  {
    AnalyzeCollegeTail(model, age, answers, skills);
    var a := Analyze(model, age, answers, skills);
    var rest := GapAndCourses(model, a.value.careerRecommendation, skills.GetOr([]));
    assert a.calls[2] == rest.calls[0];
    assert |rest.calls| == 2 ==> a.calls[3] == rest.calls[1];
  }

  /** For a college student, the calls after the first two and the skill
      fields are those of the college-only tail. */
  lemma AnalyzeCollegeTail(model: Model, age: int, answers: string, skills: Option<seq<string>>)
    requires age >= 19
    ensures var a := Analyze(model, age, answers, skills);
      var rest := GapAndCourses(model, a.value.careerRecommendation, skills.GetOr([]));
      && a.value.note.None?
      && |a.calls| == 2 + |rest.calls|
      && (forall k :: 0 <= k < |rest.calls| ==> a.calls[2 + k] == rest.calls[k])
      && a.value.requiredSkills == Some(rest.value.0.required)
      && a.value.missingSkills == Some(rest.value.0.missing)
      && a.value.courses == Some(rest.value.1)
  {
  }

  /** The response carries a note exactly when it carries no skill fields, and
      that is exactly when the user is not a college student. */
  lemma AnalyzeFields(model: Model, age: int, answers: string, skills: Option<seq<string>>)
    ensures var r := Analyze(model, age, answers, skills).value;
      && (r.note.Some? <==> age <= 18)
      && (r.requiredSkills.Some? <==> age >= 19)
      && (r.missingSkills.Some? <==> age >= 19)
      && (r.courses.Some? <==> age >= 19)
  {
  }

  /** The missing skills reported are among the required ones, and are
      exactly those the user does not have once normalised. */
  lemma AnalyzeMissingWithinRequired(model: Model, age: int, answers: string, skills: Option<seq<string>>)
    requires age >= 19
    ensures var r := Analyze(model, age, answers, skills).value;
      && r.requiredSkills.Some? && r.missingSkills.Some?
      && multiset(r.missingSkills.value) <= multiset(r.requiredSkills.value)
      && forall x :: x in r.missingSkills.value <==>
           x in r.requiredSkills.value && x !in NormalizeAll(skills.GetOr([]))
  {
    var a := Analyze(model, age, answers, skills);
    var gap := Diff(model(a.calls[2]), skills.GetOr([]));
    MissingWithinRequired(gap.required, NormalizeAll(skills.GetOr([])));
  }

  /** The end-to-end example: a college student who knows Python, whose career's
      skill list comes back as "Python, Communication, Teamwork", gets all
      three as required, the other two as missing, and one course call: four
      model calls in all. */
  lemma AnalyzeExample(model: Model, age: int, answers: string, python: string, communication: string, teamwork: string)
    requires age >= 19
    requires python == "Python" && communication == "Communication" && teamwork == "Teamwork"
    requires var traits := model(PersonalityPrompt(answers));
      var career := model(CareerPrompt(traits, answers));
      model(SkillsPrompt(career)) == python + ", " + communication + ", " + teamwork
    ensures var a := Analyze(model, age, answers, Some([python]));
      && |a.calls| == 4
      && a.value.requiredSkills == Some([python, communication, teamwork])
      && a.value.missingSkills == Some([communication, teamwork])
      && a.value.courses.Some? && a.value.note.None?
  {
    var traits := model(PersonalityPrompt(answers));
    var career := model(CareerPrompt(traits, answers));
    ExampleGap(model(SkillsPrompt(career)), python, communication, teamwork);
    AnalyzeWithGap(model, age, answers, Some([python]), [python, communication, teamwork], [communication, teamwork]);
  }

  /** A college student whose skill gap is known: the response carries it, and
      a gap that is not empty costs a fourth call for the courses. */
  lemma AnalyzeWithGap(model: Model, age: int, answers: string, skills: Option<seq<string>>,
                       required: seq<string>, missing: seq<string>)
    requires age >= 19
    ensures var traits := model(PersonalityPrompt(answers));
      var career := model(CareerPrompt(traits, answers));
      Diff(model(SkillsPrompt(career)), skills.GetOr([])) == Gap(required, missing) ==>
      var a := Analyze(model, age, answers, skills);
      && |a.calls| == (if missing == [] then 3 else 4)
      && a.value.requiredSkills == Some(required)
      && a.value.missingSkills == Some(missing)
      && a.value.courses.Some? && a.value.note.None?
  {
    AnalyzeCollegeGap(model, age, answers, skills);
  }
}

=== FILE: seqs.dfy ===
/** Generic sequence operations: the list comprehensions `[f(x) for x in s]`
    and `[x for x in s if p(x)]`, and the subsequence relation between lists. */
module Seqs {

  /** `[f(x) for x in s]`. */
  function Map<T, U>(s: seq<T>, f: T -> U): (r: seq<U>)
    ensures |r| == |s|
    ensures forall i :: 0 <= i < |s| ==> r[i] == f(s[i])
  {
    if |s| == 0 then [] else [f(s[0])] + Map(s[1..], f)
  }

  /** `[x for x in s if p(x)]`: keeps, in order, the elements satisfying `p`. */
  function Filter<T(!new)>(s: seq<T>, p: T -> bool): (r: seq<T>)
    ensures |r| <= |s|
    ensures forall x :: x in r <==> x in s && p(x)
  {
    if |s| == 0 then []
    else
      var rest := Filter(s[1..], p);
      assert s == [s[0]] + s[1..];
      if p(s[0]) then [s[0]] + rest else rest
  }

  /** The filter keeps every passing element exactly as often as `s` has it,
      and no failing one. */
  lemma {:induction false} FilterCounts<T(!new)>(s: seq<T>, p: T -> bool, x: T)
    ensures multiset(Filter(s, p))[x] == if p(x) then multiset(s)[x] else 0
    decreases |s|
  {
    if |s| > 0 {
      FilterCounts(s[1..], p, x);
      assert s == [s[0]] + s[1..];
      assert multiset(s) == multiset{s[0]} + multiset(s[1..]);
      if p(s[0]) {
        assert Filter(s, p) == [s[0]] + Filter(s[1..], p);
        assert multiset(Filter(s, p)) == multiset{s[0]} + multiset(Filter(s[1..], p));
      }
    }
  }

  /** `a` is obtained from `b` by deleting zero or more elements. */
  predicate IsSubseq<T(==)>(a: seq<T>, b: seq<T>)
    decreases |b|
  {
    if |a| == 0 then true
    else if |b| == 0 then false
    else if a[0] == b[0] then IsSubseq(a[1..], b[1..])
    else IsSubseq(a, b[1..])
  }

  lemma {:induction false} FilterIsSubseq<T(!new)>(s: seq<T>, p: T -> bool)
    ensures IsSubseq(Filter(s, p), s)
    decreases |s|
  {
    if |s| > 0 {
      FilterIsSubseq(s[1..], p);
      if !p(s[0]) {
        SubseqDropHead(Filter(s[1..], p), s);
      }
    }
  }

  /** A subsequence of the tail is a subsequence of the whole. */
  lemma {:induction false} SubseqDropHead<T>(a: seq<T>, b: seq<T>)
    requires |b| > 0 && IsSubseq(a, b[1..])
    ensures IsSubseq(a, b)
    decreases |a| + |b|
  {
    if |a| > 0 && a[0] == b[0] {
      assert |b[1..]| > 0;
      if a[0] == b[1] {
        assert IsSubseq(a[1..], b[2..]);
        SubseqDropHead(a[1..], b[1..]);
        assert b[1..][1..] == b[2..];
      } else {
        assert IsSubseq(a, b[2..]);
        SubseqDropHead(a, b[1..]);
        SubseqDropFirst(a, b[1..]);
      }
    }
  }

  /** Removing the first element of `a` keeps it a subsequence. */
  lemma {:induction false} SubseqDropFirst<T>(a: seq<T>, b: seq<T>)
    requires |a| > 0 && IsSubseq(a, b)
    ensures IsSubseq(a[1..], b)
    decreases |a| + |b|
  {
    assert |b| > 0;
    if a[0] == b[0] {
      SubseqDropHead(a[1..], b);
    } else {
      SubseqDropFirst(a, b[1..]);
      SubseqDropHead(a[1..], b);
    }
  }

  /** A subsequence keeps every element at most as often as the original: it is
      a sub-multiset, duplicates included. */
  lemma {:induction false} SubseqMultiset<T>(a: seq<T>, b: seq<T>)
    requires IsSubseq(a, b)
    ensures multiset(a) <= multiset(b)
    decreases |b|
  {
    if |a| > 0 {
      assert b == [b[0]] + b[1..];
      if a[0] == b[0] {
        SubseqMultiset(a[1..], b[1..]);
        assert a == [a[0]] + a[1..];
      } else {
        SubseqMultiset(a, b[1..]);
      }
    }
  }

  lemma {:induction false} FilterConcat<T(!new)>(a: seq<T>, b: seq<T>, p: T -> bool)
    ensures Filter(a + b, p) == Filter(a, p) + Filter(b, p)
    decreases |a|
  {
    if |a| == 0 {
      assert a + b == b;
    } else {
      assert (a + b)[1..] == a[1..] + b;
      FilterConcat(a[1..], b, p);
    }
  }

  /** When every element passes, the filter keeps the whole list. */
  lemma {:induction false} FilterAllPass<T(!new)>(s: seq<T>, p: T -> bool)
    requires forall i :: 0 <= i < |s| ==> p(s[i])
    ensures Filter(s, p) == s
    decreases |s|
  {
    if |s| > 0 {
      FilterAllPass(s[1..], p);
      assert s == [s[0]] + s[1..];
    }
  }

  /** `[y for x in s for y in f(x)]`: the lists `f(x)` concatenated in order. */
  function FlatMap<T, U>(s: seq<T>, f: T -> seq<U>): seq<U> {
    if |s| == 0 then [] else f(s[0]) + FlatMap(s[1..], f)
  }

  lemma {:induction false} FlatMapConcat<T, U>(a: seq<T>, b: seq<T>, f: T -> seq<U>)
    ensures FlatMap(a + b, f) == FlatMap(a, f) + FlatMap(b, f)
    decreases |a|
  {
    if |a| == 0 {
      assert a + b == b;
    } else {
      assert (a + b)[1..] == a[1..] + b;
      FlatMapConcat(a[1..], b, f);
    }
  }

  lemma FlatMapSingleton<T, U>(x: T, f: T -> seq<U>)
    ensures FlatMap([x], f) == f(x)
  {
    assert [x][1..] == [];
  }

  /** Every element of a flat map comes from the image of some element. */
  lemma {:induction false} FlatMapMember<T, U>(s: seq<T>, f: T -> seq<U>, y: U)
    requires y in FlatMap(s, f)
    ensures exists i :: 0 <= i < |s| && y in f(s[i])
    decreases |s|
  {
    if y !in f(s[0]) {
      FlatMapMember(s[1..], f, y);
      var i :| 0 <= i < |s[1..]| && y in f(s[1..][i]);
      assert y in f(s[i + 1]);
    }
  }

  /** A flat map is empty exactly when every image is. */
  lemma {:induction false} FlatMapEmpty<T, U>(s: seq<T>, f: T -> seq<U>)
    ensures FlatMap(s, f) == [] <==> forall i :: 0 <= i < |s| ==> f(s[i]) == []
    decreases |s|
  {
    if |s| > 0 {
      FlatMapEmpty(s[1..], f);
      assert forall i :: 1 <= i < |s| ==> s[i] == s[1..][i - 1];
    }
  }
}

=== FILE: skill_gap.dfy ===
/** The pure part of the skill-gap analysis: parsing the model's comma-separated
    skill list into normalised required skills, and diffing it against the
    skills the user already has. */
module SkillGap {
  import opened Seqs
  import opened Text

  /** How both lists are normalised before comparison: surrounding whitespace
      removed, then title-cased. */
  function Normalize(s: string): (r: string)
    ensures |r| == |Strip(s)| <= |s|
    ensures forall i :: 0 <= i < |r| ==> ToLower(r[i]) == ToLower(Strip(s)[i])
  {
    TitleChangesCaseOnly(Strip(s));
    Title(Strip(s))
  }

  /** Two names that differ only in surrounding whitespace and in the case of
      their letters normalise to the same name, so a known "  python" covers a
      required "Python". */
  lemma NormalizeIgnoresCaseAndPadding(s: string, t: string)
    requires |Strip(s)| == |Strip(t)|
    requires forall i :: 0 <= i < |Strip(s)| ==> ToLower(Strip(s)[i]) == ToLower(Strip(t)[i])
    ensures Normalize(s) == Normalize(t)
  {
    TitleIgnoresCase(Strip(s), Strip(t));
  }

  /** A string normalises to nothing exactly when it is all whitespace. */
  lemma NormalizeEmpty(s: string)
    ensures |Normalize(s)| == 0 <==> AllSpace(s)
  {
    StripEmpty(s);
  }

  /** The normal form is stripped and title-cased already. */
  lemma NormalizeIsNormal(s: string)
    ensures IsNormalized(Normalize(s))
  {
    var t := Strip(s);
    TitleKeepsStripped(t);
    TitleIdempotent(t);
    StripStripped(Title(t));
  }

  /** A skill name already in normal form. */
  predicate IsNormalized(s: string) {
    Strip(s) == s && Title(s) == s
  }

  /** Normalising twice changes nothing. */
  lemma NormalizeIdempotent(s: string)
    ensures Normalize(Normalize(s)) == Normalize(s)
  {
    NormalizeIsNormal(s);
    NormalizedIsFixed(Normalize(s));
  }

  lemma NormalizedIsFixed(s: string)
    requires IsNormalized(s)
    ensures Normalize(s) == s
  {
  }

  /** Normalising introduces no comma. */
  lemma NormalizeKeepsCommaOut(s: string)
    requires ',' !in s
    ensures ',' !in Normalize(s)
  {
    var t := Strip(s);
    var i := |s| - |TrimStart(s)|;
    StripInfix(s);
    assert t == s[i..i + |t|];
    assert ',' !in t by {
      forall k | 0 <= k < |t|
        ensures t[k] != ','
      {
        assert t[k] == s[i + k];
      }
    }
    TitleKeepsUncasedOut(t, ',');
  }

  /** The filter on the reply's pieces: a piece with something other
      than whitespace in it. */
  predicate NotBlank(s: string) {
    Strip(s) != []
  }

  /** A piece passes the filter exactly when it has a character that is not
      whitespace. */
  lemma NotBlankIff(s: string)
    ensures NotBlank(s) <==> !AllSpace(s)
  {
    StripEmpty(s);
  }

  /** What one piece of the model's reply adds to the required skills: its
      normal form, unless the piece is blank. */
  function Contribution(piece: string): seq<string> {
    if NotBlank(piece) then [Normalize(piece)] else []
  }

  /** The required skills: the non-blank comma-separated pieces of the reply,
      each stripped and title-cased, in order. */
  function Required(skillsText: string): (required: seq<string>)
    ensures forall i :: 0 <= i < |required| ==>
      required[i] != [] && IsNormalized(required[i]) && ',' !in required[i]
  {
    var pieces := Split(skillsText, ',');
    var required := FlatMap(pieces, Contribution);
    forall i | 0 <= i < |required|
      ensures required[i] != [] && IsNormalized(required[i]) && ',' !in required[i]
    {
      assert required[i] in required;
      FlatMapMember(pieces, Contribution, required[i]);
      var j :| 0 <= j < |pieces| && required[i] in Contribution(pieces[j]);
      ContributionIsNormal(pieces[j], required[i]);
    }
    required
  }

  lemma ContributionIsNormal(piece: string, skill: string)
    requires ',' !in piece && skill in Contribution(piece)
    ensures skill != [] && IsNormalized(skill) && ',' !in skill
  {
    assert skill == Normalize(piece);
    NormalizeKeepsCommaOut(piece);
    NormalizeIsNormal(piece);
  }

  /** The user's skills, each stripped and title-cased; unlike the required
      skills, no entry is dropped here. */
  function NormalizeAll(skills: seq<string>): (r: seq<string>)
    ensures |r| == |skills|
    ensures forall i :: 0 <= i < |r| ==> r[i] == Normalize(skills[i]) && IsNormalized(r[i])
  {
    forall i | 0 <= i < |skills| ensures IsNormalized(Normalize(skills[i])) {
      NormalizeIsNormal(skills[i]);
    }
    Map(skills, Normalize)
  }

  /** The required skills the user does not have, in the order and with the
      repetitions of `required`. */
  function Missing(required: seq<string>, known: seq<string>): (missing: seq<string>)
    ensures forall x :: x in missing <==> x in required && x !in known
    ensures IsSubseq(missing, required)
  {
    FilterIsSubseq(required, x => x !in known);
    Filter(required, x => x !in known)
  }

  datatype Gap = Gap(required: seq<string>, missing: seq<string>)

  /** The pure body of `analyze_skill_gap_dynamic`, given the model's reply:
      the skills the reply lists, and those of them the user lacks. */
  function Diff(skillsText: string, userSkills: seq<string>): (r: Gap)
    ensures r.required == Required(skillsText)
    ensures IsSubseq(r.missing, r.required)
    ensures forall x :: x in r.missing <==> x in r.required && x !in NormalizeAll(userSkills)
  {
    var required := Required(skillsText);
    Gap(required, Missing(required, NormalizeAll(userSkills)))
  }

  // ---------------------------------------------------------------------------
  // The order and contents of `required`
  // ---------------------------------------------------------------------------

  /** One comma-free piece contributes its normal form, unless it is blank. */
  lemma RequiredOfPiece(p: string)
    requires ',' !in p
    ensures Required(p) == if NotBlank(p) then [Normalize(p)] else []
  {
    SplitNoSep(p, ',');
    FlatMapSingleton(p, Contribution);
  }

  /** A reply without a comma that is not all whitespace is one skill. */
  lemma SingleSkillReply(reply: string)
    requires ',' !in reply && !AllSpace(reply)
    ensures Required(reply) == [Normalize(reply)]
  {
    StripEmpty(reply);
    RequiredOfPiece(reply);
  }

  /** The failure marker `safe_gemini_call` returns in place of a reply is not
      recognised as one: a comma-free error message turns into a single bogus
      required skill. */
  lemma ErrorMarkerIsASkill(reply: string, marker: string, message: string)
    requires marker == "AI_ERROR: " && ',' !in message
    requires reply == marker + message
    ensures Required(reply) == [Normalize(reply)]
  {
    assert reply[0] == 'A' && !IsSpace(reply[0]);
    assert ',' !in marker;
    assert forall i :: 0 <= i < |reply| ==> reply[i] == (if i < |marker| then marker[i] else message[i - |marker|]);
    SingleSkillReply(reply);
  }

  /** The skills of `a + "," + b` are the skills of `a` followed by those of
      `b`: `required` keeps the model's order, piece by piece. */
  lemma RequiredAtComma(a: string, b: string)
    ensures Required(a + "," + b) == Required(a) + Required(b)
  {
    SplitAtSep(a, b, ',');
    FlatMapConcat(Split(a, ','), Split(b, ','), Contribution);
  }

  /** `required`, read as the comprehension reads: the pieces that are not
      blank, kept in order, each normalised. */
  lemma RequiredIsFilterThenMap(skillsText: string)
    ensures Required(skillsText) == Map(Filter(Split(skillsText, ','), NotBlank), Normalize)
  {
    KeptPieces(Split(skillsText, ','));
  }

  lemma {:induction false} KeptPieces(pieces: seq<string>)
    ensures FlatMap(pieces, Contribution) == Map(Filter(pieces, NotBlank), Normalize)
    decreases |pieces|
  {
    if |pieces| > 0 {
      KeptPieces(pieces[1..]);
      var kept := Filter(pieces[1..], NotBlank);
      if NotBlank(pieces[0]) {
        assert Filter(pieces, NotBlank) == [pieces[0]] + kept;
        assert Map([pieces[0]] + kept, Normalize) == [Normalize(pieces[0])] + Map(kept, Normalize);
      } else {
        assert Filter(pieces, NotBlank) == kept;
      }
    }
  }

  predicate OnlyCommasAndSpace(s: string) {
    forall i :: 0 <= i < |s| ==> s[i] == ',' || IsSpace(s[i])
  }

  /** A reply made of nothing but whitespace and commas (the empty reply
      included) yields no required skill, and only such a reply does. */
  lemma {:induction false} RequiredEmpty(skillsText: string)
    ensures Required(skillsText) == [] <==> OnlyCommasAndSpace(skillsText)
  {
    var pieces := Split(skillsText, ',');
    JoinSplit(skillsText, ',');
    FlatMapEmpty(pieces, Contribution);
    if Required(skillsText) == [] {
      forall i | 0 <= i < |pieces| ensures AllSpace(pieces[i]) {
        assert Contribution(pieces[i]) == [];
        StripEmpty(pieces[i]);
      }
      JoinOfBlanks(pieces);
    } else {
      var j :| 0 <= j < |pieces| && Contribution(pieces[j]) != [];
      var p := pieces[j];
      StripEmpty(p);
      var k :| 0 <= k < |p| && !IsSpace(p[k]);
      assert p[k] != ',';
      PieceCharInJoin(pieces, p, k);
    }
  }

  /** Joining whitespace-only pieces with commas gives only commas and whitespace. */
  lemma {:induction false} JoinOfBlanks(pieces: seq<string>)
    requires forall i :: 0 <= i < |pieces| ==> AllSpace(pieces[i])
    ensures OnlyCommasAndSpace(Join(",", pieces))
  {
    if |pieces| == 1 {
      assert AllSpace(pieces[0]);
    } else if |pieces| > 1 {
      JoinOfBlanks(pieces[1..]);
      var s := Join(",", pieces);
      var rest := Join(",", pieces[1..]);
      assert s == pieces[0] + "," + rest;
      assert AllSpace(pieces[0]);
      forall i | 0 <= i < |s| ensures s[i] == ',' || IsSpace(s[i]) {
        if i < |pieces[0]| {
          assert s[i] == pieces[0][i];
        } else if i == |pieces[0]| {
          assert s[i] == ',';
        } else {
          var j := i - |pieces[0]| - 1;
          assert s[i] == rest[j];
          assert rest[j] == ',' || IsSpace(rest[j]);
        }
      }
    }
  }

  /** Every character of a piece occurs in the joined string. */
  lemma {:induction false} PieceCharInJoin(pieces: seq<string>, p: string, k: int)
    requires p in pieces && 0 <= k < |p|
    ensures p[k] in Join(",", pieces)
  {
    if |pieces| > 1 {
      var s := Join(",", pieces);
      var rest := Join(",", pieces[1..]);
      assert s == pieces[0] + "," + rest;
      if p == pieces[0] {
        assert s[k] == p[k];
      } else {
        PieceCharInJoin(pieces[1..], p, k);
        var j :| 0 <= j < |rest| && rest[j] == p[k];
        assert s[|pieces[0]| + 1 + j] == p[k];
      }
    }
  }

  // ---------------------------------------------------------------------------
  // The diff
  // ---------------------------------------------------------------------------

  /** Duplicates survive the diff: a skill the user lacks is missing as many
      times as `required` lists it, and a skill the user has is not missing. */
  lemma MissingCounts(required: seq<string>, known: seq<string>, x: string)
    ensures multiset(Missing(required, known))[x] == if x in known then 0 else multiset(required)[x]
  {
    FilterCounts(required, y => y !in known, x);
  }

  /** `missing` keeps each kept skill as often as `required` has it: a
      sub-multiset of `required`, duplicates included. */
  lemma MissingWithinRequired(required: seq<string>, known: seq<string>)
    ensures multiset(Missing(required, known)) <= multiset(required)
  {
    SubseqMultiset(Missing(required, known), required);
  }

  /** Nothing is missing exactly when the user already has every required skill. */
  lemma MissingEmptyIffCovered(required: seq<string>, known: seq<string>)
    ensures Missing(required, known) == [] <==> forall x :: x in required ==> x in known
  {
    var m := Missing(required, known);
    if m != [] {
      assert m[0] in m;
    }
  }

  /** With no known skill in `required` (in particular with no known skills),
      every required skill is missing, in the same order. */
  lemma MissingDisjoint(required: seq<string>, known: seq<string>)
    requires forall i :: 0 <= i < |required| ==> required[i] !in known
    ensures Missing(required, known) == required
  {
    FilterAllPass(required, x => x !in known);
  }

  /** A user who lists no skills misses every required skill. */
  lemma DiffWithoutSkills(skillsText: string)
    ensures Diff(skillsText, []).missing == Diff(skillsText, []).required
  {
    MissingDisjoint(Required(skillsText), NormalizeAll([]));
  }

  /** Normalising the user's skills a second time changes no result. */
  lemma DiffRenormalized(skillsText: string, userSkills: seq<string>)
    ensures Diff(skillsText, NormalizeAll(userSkills)) == Diff(skillsText, userSkills)
  {
    var once := NormalizeAll(userSkills);
    forall i | 0 <= i < |once|
      ensures NormalizeAll(once)[i] == once[i]
    {
      NormalizeIdempotent(userSkills[i]);
    }
    assert NormalizeAll(once) == once;
  }

  /** The required skills are already normal: normalising them again is a no-op. */
  lemma RequiredRenormalized(skillsText: string)
    ensures NormalizeAll(Required(skillsText)) == Required(skillsText)
  {
    var r := Required(skillsText);
    forall i | 0 <= i < |r|
      ensures NormalizeAll(r)[i] == r[i]
    {
      NormalizedIsFixed(r[i]);
    }
  }

  // ---------------------------------------------------------------------------
  // Reading a skill list back
  // ---------------------------------------------------------------------------

  /** Whitespace in front of the reply does not change the skills read from it. */
  lemma RequiredLeadingSpace(t: string)
    ensures Required(" " + t) == Required(t)
  {
    var pieces := Split(t, ',');
    assert (" " + t)[1..] == t;
    assert Split(" " + t, ',') == [" " + pieces[0]] + pieces[1..];
    StripLeadingSpace(' ', pieces[0]);
    assert Contribution(" " + pieces[0]) == Contribution(pieces[0]);
    FlatMapConcat([" " + pieces[0]], pieces[1..], Contribution);
    FlatMapConcat([pieces[0]], pieces[1..], Contribution);
    FlatMapSingleton(" " + pieces[0], Contribution);
    FlatMapSingleton(pieces[0], Contribution);
    assert pieces == [pieces[0]] + pieces[1..];
  }

  /** A single normal skill name reads back as itself. */
  lemma RequiredOfSkill(skill: string)
    requires skill != [] && IsNormalized(skill) && ',' !in skill
    ensures Required(skill) == [skill]
  {
    RequiredOfPiece(skill);
    NormalizedIsFixed(skill);
  }

  /** Reading a `", "`-joined list: the first name, then the rest. */
  lemma RequiredOfJoinedStep(skills: seq<string>)
    requires |skills| > 1
    ensures Required(Join(", ", skills)) == Required(skills[0]) + Required(Join(", ", skills[1..]))
  {
    var tail := Join(", ", skills[1..]);
    assert Join(", ", skills) == skills[0] + ", " + tail;
    RequiredAtCommaSpace(skills[0], tail);
  }

  /** The skills of `a + ", " + b` are those of `a` followed by those of `b`. */
  lemma RequiredAtCommaSpace(a: string, b: string)
    ensures Required(a + ", " + b) == Required(a) + Required(b)
  {
    assert a + ", " + b == a + "," + (" " + b);
    RequiredAtComma(a, " " + b);
    RequiredLeadingSpace(b);
  }

  /** A list of normal, comma-free skill names joined with `", "` (the way the
      course prompt lists the missing skills) reads back as the same list. */
  lemma {:induction false} RequiredOfJoined(skills: seq<string>)
    requires forall i :: 0 <= i < |skills| ==>
      skills[i] != [] && IsNormalized(skills[i]) && ',' !in skills[i]
    ensures Required(Join(", ", skills)) == skills
  {
    if |skills| == 0 {
      assert Join(", ", skills) == "";
      RequiredEmpty("");
    } else if |skills| == 1 {
      assert Join(", ", skills) == skills[0];
      RequiredOfSkill(skills[0]);
    } else {
      var head, tail := skills[0], skills[1..];
      RequiredOfSkill(head);
      RequiredOfJoinedStep(skills);
      forall i | 0 <= i < |tail|
        ensures tail[i] != [] && IsNormalized(tail[i]) && ',' !in tail[i]
      {
        assert tail[i] == skills[i + 1];
      }
      RequiredOfJoined(tail);
      assert skills == [head] + tail;
    }
  }

  /** The missing skills, listed with `", "` (as the course prompt lists
      them), read back as the same list. */
  lemma MissingReadsBack(skillsText: string, userSkills: seq<string>)
    ensures var missing := Diff(skillsText, userSkills).missing;
      Required(Join(", ", missing)) == missing
  {
    var required := Required(skillsText);
    var missing := Missing(required, NormalizeAll(userSkills));
    MissingKeepsNormal(required, missing);
    RequiredOfJoined(missing);
  }

  lemma MissingKeepsNormal(required: seq<string>, missing: seq<string>)
    requires forall i :: 0 <= i < |required| ==>
      required[i] != [] && IsNormalized(required[i]) && ',' !in required[i]
    requires forall x :: x in missing ==> x in required
    ensures forall i :: 0 <= i < |missing| ==>
      missing[i] != [] && IsNormalized(missing[i]) && ',' !in missing[i]
  {
    forall i | 0 <= i < |missing|
      ensures missing[i] != [] && IsNormalized(missing[i]) && ',' !in missing[i]
    {
      assert missing[i] in missing;
      var j :| 0 <= j < |required| && required[j] == missing[i];
    }
  }

  // ---------------------------------------------------------------------------
  // A worked example
  // ---------------------------------------------------------------------------

  /** A capitalised word of ASCII letters is its own title case. */
  lemma TitleOfWord(w: string)
    requires |w| > 0 && IsUpper(w[0])
    requires forall i :: 0 < i < |w| ==> IsLower(w[i])
    ensures Title(w) == w
  {
    TitleAt(w);
    forall i | 0 <= i < |w|
      ensures Title(w)[i] == w[i]
    {
      if i > 0 {
        assert IsCased(w[i - 1]);
      }
    }
  }

  lemma WordIsNormal(w: string)
    requires |w| > 0 && IsUpper(w[0])
    requires forall i :: 0 < i < |w| ==> IsLower(w[i])
    ensures IsNormalized(w) && ',' !in w
  {
    TitleOfWord(w);
    StripStripped(w);
  }

  /** The model lists three capitalised words and the user knows the first:
      all three are required, in the model's order, and the other two are
      missing. */
  lemma DiffOfWords(a: string, b: string, c: string)
    requires |a| > 0 && IsUpper(a[0]) && forall i :: 0 < i < |a| ==> IsLower(a[i])
    requires |b| > 0 && IsUpper(b[0]) && forall i :: 0 < i < |b| ==> IsLower(b[i])
    requires |c| > 0 && IsUpper(c[0]) && forall i :: 0 < i < |c| ==> IsLower(c[i])
    requires b != a && c != a
    ensures Diff(a + ", " + b + ", " + c, [a]) == Gap([a, b, c], [b, c])
  {
    RequiredOfWords(a, b, c);
    WordIsNormal(a);
    NormalizedIsFixed(a);
    assert NormalizeAll([a]) == [a];
    MissingOfWords(a, b, c);
  }

  lemma RequiredOfWords(a: string, b: string, c: string)
    requires |a| > 0 && IsUpper(a[0]) && forall i :: 0 < i < |a| ==> IsLower(a[i])
    requires |b| > 0 && IsUpper(b[0]) && forall i :: 0 < i < |b| ==> IsLower(b[i])
    requires |c| > 0 && IsUpper(c[0]) && forall i :: 0 < i < |c| ==> IsLower(c[i])
    ensures Required(a + ", " + b + ", " + c) == [a, b, c]
  {
    WordIsNormal(a);
    WordIsNormal(b);
    WordIsNormal(c);
    RequiredOfSkill(a);
    RequiredOfSkill(b);
    RequiredOfSkill(c);
    RequiredOfThree(a, b, c);
  }

  lemma RequiredOfThree(a: string, b: string, c: string)
    requires Required(a) == [a] && Required(b) == [b] && Required(c) == [c]
    ensures Required(a + ", " + b + ", " + c) == [a, b, c]
  {
    var bc := b + ", " + c;
    RequiredAtCommaSpace(b, c);
    assert Required(bc) == [b, c];
    RequiredAtCommaSpace(a, bc);
    assert a + ", " + bc == a + ", " + b + ", " + c;
    assert [a] + [b, c] == [a, b, c];
  }

  lemma MissingOfWords(a: string, b: string, c: string)
    requires b != a && c != a
    ensures Missing([a, b, c], [a]) == [b, c]
  {
    assert [a, b, c] == [a] + [b, c];
    FilterConcat([a], [b, c], x => x !in [a]);
    FilterAllPass([b, c], x => x !in [a]);
  }

  /** The worked example: the reply "Python, Communication, Teamwork" against
      a user who knows Python. */
  lemma ExampleGap(reply: string, a: string, b: string, c: string)
    requires a == "Python" && b == "Communication" && c == "Teamwork"
    requires reply == a + ", " + b + ", " + c
    ensures Diff(reply, [a]) == Gap([a, b, c], [b, c])
  {
    DiffOfWords(a, b, c);
  }

  /** A known skill written with padding and in lower case still covers the
      required skill: the reply "Python" against the known "  python " leaves
      nothing missing. */
  lemma PaddedKnownSkill(reply: string, known: string)
    requires reply == "Python" && known == "  python "
    ensures Diff(reply, [known]) == Gap([reply], [])
  {
    WordIsNormal(reply);
    RequiredOfSkill(reply);
    var rest := known[2..];
    var inner := known[2..8];
    assert TrimStart(known) == rest by {
      assert IsSpace(known[0]) && known[1..][0] == known[1] && IsSpace(known[1]);
      assert known[1..][1..] == rest;
      assert TrimStart(known) == TrimStart(known[1..]);
      assert TrimStart(known[1..]) == TrimStart(rest);
      assert rest[0] == 'p' && !IsSpace(rest[0]);
    }
    assert TrimEnd(rest) == inner by {
      assert rest[|rest| - 1] == ' ' && rest[..|rest| - 1] == inner;
      assert TrimEnd(rest) == TrimEnd(inner);
      assert inner[|inner| - 1] == 'n' && !IsSpace(inner[|inner| - 1]);
    }
    assert Strip(known) == inner;
    StripStripped(reply);
    NormalizeIgnoresCaseAndPadding(known, reply);
    NormalizedIsFixed(reply);
    assert NormalizeAll([known]) == [reply];
  }
}

=== FILE: text.dfy ===
/** The Python `str` operations the service relies on: `strip()`, `title()`,
    `split(sep)`, `sep.join(parts)` and `startswith(prefix)`, on strings as
    sequences of characters. */
module Text {
  import opened Seqs

  // ---------------------------------------------------------------------------
  // Character classes
  // ---------------------------------------------------------------------------

  /** The characters Python's `str.isspace` accepts, which `str.strip()` with no
      argument removes: the ASCII controls TAB..CR and FS..US, space, NEL,
      NO-BREAK SPACE and the Unicode space separators and line/paragraph
      separators. */
  predicate IsSpace(c: char) {
    || ('\t' <= c <= '\r')
    || ('\U{1C}' <= c <= ' ')
    || c == '\U{85}' || c == '\U{A0}' || c == '\U{1680}'
    || ('\U{2000}' <= c <= '\U{200A}')
    || c == '\U{2028}' || c == '\U{2029}' || c == '\U{202F}'
    || c == '\U{205F}' || c == '\U{3000}'
  }

  predicate IsUpper(c: char) { 'A' <= c <= 'Z' }
  predicate IsLower(c: char) { 'a' <= c <= 'z' }

  /** A character with case; only ASCII letters are treated as cased. */
  predicate IsCased(c: char) { IsUpper(c) || IsLower(c) }

  function ToUpper(c: char): (u: char)
    ensures IsCased(u) <==> IsCased(c)
    ensures !IsLower(u)
    ensures IsCased(c) || u == c
  {
    if IsLower(c) then (c as int - 32) as char else c
  }

  function ToLower(c: char): (l: char)
    ensures IsCased(l) <==> IsCased(c)
    ensures !IsUpper(l)
    ensures IsCased(c) || l == c
  {
    if IsUpper(c) then (c as int + 32) as char else c
  }

  /** A cased character keeps its letter under both case mappings. */
  lemma CaseMappingsAgree(c: char)
    ensures ToLower(ToUpper(c)) == ToLower(c)
    ensures ToUpper(ToLower(c)) == ToUpper(c)
    ensures ToUpper(ToUpper(c)) == ToUpper(c)
    ensures ToLower(ToLower(c)) == ToLower(c)
  {
  }

  // ---------------------------------------------------------------------------
  // strip()
  // ---------------------------------------------------------------------------

  predicate AllSpace(s: string) {
    forall i :: 0 <= i < |s| ==> IsSpace(s[i])
  }

  /** Neither end of `s` is whitespace: `s` is a fixed point of `strip()`. */
  predicate IsStripped(s: string) {
    |s| == 0 || (!IsSpace(s[0]) && !IsSpace(s[|s| - 1]))
  }

  /** `lstrip()`: drops the leading whitespace. */
  function TrimStart(s: string): (r: string)
    ensures |r| <= |s|
    ensures |r| == 0 || !IsSpace(r[0])
  {
    if |s| > 0 && IsSpace(s[0]) then TrimStart(s[1..]) else s
  }

  /** What `lstrip()` keeps is a suffix of `s`, and what it drops is whitespace. */
  lemma {:induction false} TrimStartSplits(s: string)
    ensures var r := TrimStart(s);
      r == s[|s| - |r|..] && AllSpace(s[..|s| - |r|])
  {
    if |s| > 0 && IsSpace(s[0]) {
      TrimStartSplits(s[1..]);
      var r := TrimStart(s[1..]);
      assert s[..|s| - |r|] == [s[0]] + s[1..][..|s[1..]| - |r|];
      assert s[|s| - |r|..] == s[1..][|s[1..]| - |r|..];
    }
  }

  /** `rstrip()`: drops the trailing whitespace. */
  function TrimEnd(s: string): (r: string)
    ensures |r| <= |s|
    ensures |r| == 0 || !IsSpace(r[|r| - 1])
    ensures |r| == 0 || r[0] == s[0]
  {
    if |s| > 0 && IsSpace(s[|s| - 1]) then TrimEnd(s[..|s| - 1]) else s
  }

  /** What `rstrip()` keeps is a prefix of `s`, and what it drops is whitespace. */
  lemma {:induction false} TrimEndSplits(s: string)
    ensures var r := TrimEnd(s);
      r == s[..|r|] && AllSpace(s[|r|..])
  {
    if |s| > 0 && IsSpace(s[|s| - 1]) {
      TrimEndSplits(s[..|s| - 1]);
      var r := TrimEnd(s[..|s| - 1]);
      assert s[|r|..] == s[..|s| - 1][|r|..] + [s[|s| - 1]];
      assert s[..|r|] == s[..|s| - 1][..|r|];
    }
  }

  /** `strip()`: the infix of `s` left once the whitespace at both ends is
      removed. */
  function Strip(s: string): (r: string)
    ensures IsStripped(r) && |r| <= |s|
  {
    TrimEnd(TrimStart(s))
  }

  /** What `strip()` keeps is a contiguous part of `s` with only whitespace
      around it. */
  lemma StripIsInfix(s: string)
    ensures exists i :: 0 <= i <= |s| - |Strip(s)| && Strip(s) == s[i..i + |Strip(s)|]
                        && AllSpace(s[..i]) && AllSpace(s[i + |Strip(s)|..])
  {
    StripInfix(s);
    StripEnds(s);
  }

  lemma StripInfix(s: string)
    ensures var r := TrimEnd(TrimStart(s));
            var i := |s| - |TrimStart(s)|;
            && 0 <= i <= |s| - |r| && r == s[i..i + |r|]
  {
    var t := TrimStart(s);
    var r := TrimEnd(t);
    var i := |s| - |t|;
    TrimStartSplits(s);
    TrimEndSplits(t);
    assert t == s[i..];
    assert r == t[..|r|];
  }

  lemma StripEnds(s: string)
    ensures var r := TrimEnd(TrimStart(s));
            var i := |s| - |TrimStart(s)|;
            AllSpace(s[..i]) && AllSpace(s[i + |r|..])
  {
    var t := TrimStart(s);
    var r := TrimEnd(t);
    var i := |s| - |t|;
    TrimStartSplits(s);
    TrimEndSplits(t);
    assert s[i + |r|..] == t[|r|..];
  }

  /** `strip()` leaves nothing exactly when `s` is all whitespace. */
  lemma StripEmpty(s: string)
    ensures |Strip(s)| == 0 <==> AllSpace(s)
  {
    var t := TrimStart(s);
    var r := TrimEnd(t);
    var i := |s| - |t|;
    TrimStartSplits(s);
    TrimEndSplits(t);
    if |r| == 0 {
      assert |t| == 0;
      assert s[..i] == s;
    } else {
      assert r[0] == s[i];
    }
  }

  /** `strip()` leaves an already stripped string unchanged. */
  lemma StripStripped(s: string)
    requires IsStripped(s)
    ensures Strip(s) == s
  {
  }

  lemma StripIdempotent(s: string)
    ensures Strip(Strip(s)) == Strip(s)
  {
    StripStripped(Strip(s));
  }

  /** A leading whitespace character makes no difference to `strip()`. */
  lemma StripLeadingSpace(c: char, s: string)
    requires IsSpace(c)
    ensures Strip([c] + s) == Strip(s)
  {
    assert ([c] + s)[1..] == s;
  }

  // ---------------------------------------------------------------------------
  // title()
  // ---------------------------------------------------------------------------

  /** `title()` continued after a character that was cased (`prevCased`) or
      not: a cased character is upper-cased when the previous character was
      uncased and lower-cased otherwise; other characters pass through. */
  function TitleAfter(s: string, prevCased: bool): (r: string)
    ensures |r| == |s|
  {
    if |s| == 0 then []
    else [if prevCased then ToLower(s[0]) else ToUpper(s[0])] + TitleAfter(s[1..], IsCased(s[0]))
  }

  /** `str.title()`: the first character is upper-cased, and after that each
      character's case is fixed by whether the one before it is cased
      (`TitleAt`). */
  function Title(s: string): (r: string)
    ensures |r| == |s|
    ensures |s| > 0 ==> r[0] == ToUpper(s[0])
  {
    TitleAfter(s, false)
  }

  /** The closed form of `title()`: each character's case is fixed by whether
      the character before it is cased. */
  lemma TitleAt(s: string)
    ensures forall i :: 0 <= i < |s| ==>
      Title(s)[i] == if i > 0 && IsCased(s[i - 1]) then ToLower(s[i]) else ToUpper(s[i])
  {
    TitleAfterAt(s, false);
    assert Title(s) == TitleAfter(s, false);
  }

  /** Title-casing looks at letters, not at their case: strings that agree
      letter by letter up to case title-case to the same string. */
  lemma TitleIgnoresCase(a: string, b: string)
    requires |a| == |b|
    requires forall i :: 0 <= i < |a| ==> ToLower(a[i]) == ToLower(b[i])
    ensures Title(a) == Title(b)
  {
    TitleAt(a);
    TitleAt(b);
    forall i | 0 <= i < |a|
      ensures Title(a)[i] == Title(b)[i]
    {
      CaseMappingsAgree(a[i]);
      CaseMappingsAgree(b[i]);
      if i > 0 {
        assert IsCased(a[i - 1]) <==> IsCased(ToLower(a[i - 1]));
      }
    }
  }

  /** Title-casing only changes the case of letters: every character keeps its
      lower-case form and its casedness, and uncased characters stay put. */
  lemma TitleChangesCaseOnly(s: string)
    ensures var r := Title(s);
      && (forall i :: 0 <= i < |s| ==> ToLower(r[i]) == ToLower(s[i]))
      && (forall i :: 0 <= i < |s| ==> (IsCased(r[i]) <==> IsCased(s[i])))
      && (forall i :: 0 <= i < |s| && !IsCased(s[i]) ==> r[i] == s[i])
  {
    TitleAt(s);
    var r := Title(s);
    forall i | 0 <= i < |s|
      ensures ToLower(r[i]) == ToLower(s[i])
      ensures IsCased(r[i]) <==> IsCased(s[i])
      ensures !IsCased(s[i]) ==> r[i] == s[i]
    {
      CaseMappingsAgree(s[i]);
      assert r[i] == if i > 0 && IsCased(s[i - 1]) then ToLower(s[i]) else ToUpper(s[i]);
    }
  }

  lemma {:induction false} TitleAfterAt(s: string, p: bool)
    ensures forall i :: 0 <= i < |s| ==>
      TitleAfter(s, p)[i] == if (if i == 0 then p else IsCased(s[i - 1])) then ToLower(s[i]) else ToUpper(s[i])
  {
    if |s| > 0 {
      TitleAfterAt(s[1..], IsCased(s[0]));
      assert TitleAfter(s, p)[0] == if p then ToLower(s[0]) else ToUpper(s[0]);
      forall i | 1 <= i < |s|
        ensures TitleAfter(s, p)[i] == TitleAfter(s[1..], IsCased(s[0]))[i - 1]
      {
      }
    }
  }

  /** Title-casing twice is the same as title-casing once. */
  lemma {:induction false} TitleIdempotent(s: string)
    ensures Title(Title(s)) == Title(s)
  {
    TitleAfterIdempotent(s, false);
  }

  lemma {:induction false} TitleAfterIdempotent(s: string, p: bool)
    ensures TitleAfter(TitleAfter(s, p), p) == TitleAfter(s, p)
  {
    if |s| > 0 {
      var t := TitleAfter(s, p);
      CaseMappingsAgree(s[0]);
      assert t[1..] == TitleAfter(s[1..], IsCased(s[0]));
      assert IsCased(t[0]) == IsCased(s[0]);
      TitleAfterIdempotent(s[1..], IsCased(s[0]));
    }
  }

  /** Title-casing does not move whitespace, so a stripped string stays stripped. */
  lemma TitleKeepsStripped(s: string)
    requires IsStripped(s)
    ensures IsStripped(Title(s))
  {
    var t := Title(s);
    TitleChangesCaseOnly(s);
    if |s| > 0 {
      assert !IsCased(t[0]) ==> t[0] == s[0];
      assert !IsCased(t[|s| - 1]) ==> t[|s| - 1] == s[|s| - 1];
    }
  }

  /** Title-casing introduces no uncased character that was not already there. */
  lemma TitleKeepsUncasedOut(s: string, c: char)
    requires !IsCased(c) && c !in s
    ensures c !in Title(s)
  {
    var t := Title(s);
    TitleChangesCaseOnly(s);
    forall i | 0 <= i < |t|
      ensures t[i] != c
    {
      if !IsCased(s[i]) {
        assert t[i] == s[i];
      }
    }
  }

  // ---------------------------------------------------------------------------
  // split(sep), sep.join(parts), startswith(prefix)
  // ---------------------------------------------------------------------------

  /** `s.split(sep)` for a one-character separator: the pieces between the
      occurrences of `sep`; there is always at least one piece, and `""` splits
      into `[""]`. */
  function Split(s: string, sep: char): (r: seq<string>)
    ensures |r| >= 1
    ensures forall i :: 0 <= i < |r| ==> sep !in r[i]
  {
    if |s| == 0 then [[]]
    else
      var rest := Split(s[1..], sep);
      if s[0] == sep then [[]] + rest
      else [[s[0]] + rest[0]] + rest[1..]
  }

  /** `sep.join(parts)`. */
  function Join(sep: string, parts: seq<string>): (r: string)
    ensures |parts| == 0 ==> r == []
    ensures |parts| > 0 ==> parts[0] <= r
    ensures |parts| > 0 ==> |r| + |sep| == TotalLength(parts) + |parts| * |sep|
  {
    if |parts| == 0 then []
    else if |parts| == 1 then parts[0]
    else
      var rest := Join(sep, parts[1..]);
      assert parts[0] <= parts[0] + sep + rest;
      parts[0] + sep + rest
  }

  /** `sep.join(parts)` against a reference definition: with one more `sep`
      at the end, it is every part followed by `sep`, in order. */
  lemma {:induction false} JoinAsFlatMap(sep: string, parts: seq<string>)
    ensures |parts| > 0 ==> Join(sep, parts) + sep == FlatMap(parts, p => p + sep)
  {
    if |parts| == 1 {
      assert FlatMap(parts, p => p + sep) == parts[0] + sep + FlatMap(parts[1..], p => p + sep);
    } else if |parts| > 1 {
      JoinAsFlatMap(sep, parts[1..]);
      var rest := Join(sep, parts[1..]);
      assert Join(sep, parts) + sep == (parts[0] + sep) + (rest + sep);
    }
  }

  /** The number of characters in all the parts together. */
  function TotalLength(parts: seq<string>): nat {
    if |parts| == 0 then 0 else |parts[0]| + TotalLength(parts[1..])
  }

  /** `s.startswith(prefix)`: `s` is `prefix` followed by something. */
  predicate StartsWith(s: string, prefix: string): (b: bool)
    ensures b <==> exists rest :: s == prefix + rest
  {
    var b := |prefix| <= |s| && s[..|prefix|] == prefix;
    assert b ==> s == prefix + s[|prefix|..];
    b
  }

  /** A string without the separator is a single piece. */
  lemma {:induction false} SplitNoSep(s: string, sep: char)
    requires sep !in s
    ensures Split(s, sep) == [s]
  {
    if |s| > 0 {
      SplitNoSep(s[1..], sep);
      assert s == [s[0]] + s[1..];
    }
  }

  /** Splitting distributes over a separator: the pieces of `a + sep + b` are
      the pieces of `a` followed by the pieces of `b`. */
  lemma {:induction false} SplitAtSep(a: string, b: string, sep: char)
    ensures Split(a + [sep] + b, sep) == Split(a, sep) + Split(b, sep)
  {
    if |a| == 0 {
      assert a + [sep] + b == [sep] + b;
      assert ([sep] + b)[1..] == b;
    } else {
      assert (a + [sep] + b)[1..] == a[1..] + [sep] + b;
      SplitAtSep(a[1..], b, sep);
    }
  }

  /** Joining the pieces with the separator gives back the split string. */
  lemma {:induction false} JoinSplit(s: string, sep: char)
    ensures Join([sep], Split(s, sep)) == s
  {
    if |s| > 0 {
      JoinSplit(s[1..], sep);
      var rest := Split(s[1..], sep);
      if s[0] == sep {
        assert s == [sep] + s[1..];
        if |rest| == 1 {
          assert Join([sep], [[]] + rest) == [] + [sep] + Join([sep], rest);
        } else {
          assert ([[]] + rest)[1..] == rest;
        }
      } else {
        var head := [s[0]] + rest[0];
        assert s == [s[0]] + s[1..];
        if |rest| == 1 {
          assert Split(s, sep) == [head];
        } else {
          assert Split(s, sep) == [head] + rest[1..];
          assert Join([sep], rest) == rest[0] + [sep] + Join([sep], rest[1..]);
        }
      }
    }
  }

  /** Splitting a join of separator-free pieces gives back the pieces. */
  lemma {:induction false} SplitJoin(parts: seq<string>, sep: char)
    requires |parts| >= 1
    requires forall i :: 0 <= i < |parts| ==> sep !in parts[i]
    ensures Split(Join([sep], parts), sep) == parts
  {
    SplitNoSep(parts[0], sep);
    if |parts| > 1 {
      SplitJoin(parts[1..], sep);
      SplitAtSep(parts[0], Join([sep], parts[1..]), sep);
      assert parts == [parts[0]] + parts[1..];
    }
  }
}
